=== FILE: README.md ===
# Flashcards — a Dafny model of the card collection

The Kotlin program is a console flash-card trainer. `FlashCardsGame` holds an ordered,
mutable list of `FlashCard(term, definition, wrongAnswer)` values. A menu loop lets the
user add and remove cards, be quizzed on them, import and export them as
`"term"="definition"count` lines, ask for the hardest card and reset the statistics.

This project models that collection logic as pure functions over `seq<Card>`.

- **Console input.** Each handler gets the lines the user types as `input: seq<string>`.
  It returns the new collection, an outcome tag and the lines it did not read
  (`Cards.Handled`). If the typed lines run out, Kotlin's `readln` throws. The model
  reports this as outcome `None`.
- **Files.** A file is its sequence of lines. A missing file is `None`.

Modules:

| module | file | models |
|---|---|---|
| `Cards` | cards.dfy | `FlashCard`, `firstOrNull` look-ups, the distinct-terms invariant |
| `Editing` | editing.dfy | `addFlashCard`, `remove`, three-argument `importFlashCard` (merge by term) |
| `Quiz` | quiz.dfy | `checkAnswer`, `play` |
| `Stats` | stats.dfy | `hardestCard`, `resetCards` |
| `Decimal` | decimal.dfy | `Int.toString` of a count and `toIntOrNull` (32-bit `Int` bound) |
| `Record` | record.dfy | the export line format and the import regex |
| `Transfer` | transfer.dfy | the import loop over a file's lines, export, the round trip |
| `Menu` | menu.dfy | `MenuItems`, the menu prompt, the dispatch of a typed command |
| `Startup` | launch.dfy | the argument loop of `main` |
| `Options`, `Text` | options.dfy, text.dfy | `Option`, `joinToString`, `isBlank` |

### The import regex

The regex is `"(?<term>.*)"="(?<def>.*)"(?<wrongs>\d*)?`. It is applied with `matches`,
and the groups are then read with `find`. For a matching line both calls give the same
groups.

- The closing quote of the definition is the last `"` of the line. Only ASCII digits may
  follow it.
- The greedy term group runs up to the last `"="` that still leaves room for that quote.
- `.` does not match Java's line terminators (`\n`, `\r`, U+0085, U+2028, U+2029).

`Record.MatchRecord` computes exactly this split. Four lemmas pin it down:

- `MatchSound`: the split found is one the regex matches.
- `MatchComplete`: no split of the line has a longer term.
- `MatchUnique`: two splits with terms of the same length are the same split.
- `MatchWithoutQuoteInDefinition`: a split whose definition holds no `"` has the longest
  term, so it is the split read back. It need not be the only split: `"a"="b"="c"`
  splits both as (`a`, `b"="c`) and as (`a"="b`, `c`).

A definition free of quotes is enough for the round trip, and the term may contain
quotes. A quote in the definition is not always a problem (`QuoteInDefinitionReadBack`): only a `"="` inside the
definition, or one its end forms with the closing quote, is misread
(`SeparatorInDefinitionIsMisread`).

### Behaviour worth noting

- **Import merge.** A merge keeps the card's count even when the imported line carries
  one. Only the definition is overwritten (`Main.kt:145`). See `Editing.MergeCard` and
  `Transfer.ImportSameTermTwice`.
- **Quiz count.** `ask` accepts any `Int`, and `play` asks nothing for a count of 0 or
  less. `Quiz.Play` takes any `int`.
- **Count too large for the collection.** `cards[i - 1]` has no bound check
  (`Main.kt:192`). `Quiz.Play` stops with `IndexOutOfBounds` after every card has been
  asked, which is where Kotlin throws.
- **Hardest card, singular.** The one-card message has no closing full stop
  (`Main.kt:92`). `Stats.ReportMessage` keeps it that way.

## Model

| member | source | states |
|---|---|---|
| Cards.FindTerm | Flashcards/task/src/flashcards/Main.kt:142-144 | the position found holds the term, and no earlier card does; nothing is found exactly when no card has the term |
| Cards.FindDefinition | Flashcards/task/src/flashcards/Main.kt:233 | the first card whose definition equals the answer; nothing exactly when no card has that definition |
| Editing.AddCard | Flashcards/task/src/flashcards/Main.kt:198-223 | the add succeeds iff the term is non-empty and unused and the definition is non-empty and used by no card. On success `(term, definition, 0)` is appended. Any rejection leaves the collection unchanged. A rejected term ends the add before the definition line is read. |
| Editing.AddKeepsTermsDistinct | Flashcards/task/src/flashcards/Main.kt:207-222 | adding keeps at most one card per term, and the new card is found at the end |
| Editing.RemoveTerm | Flashcards/task/src/flashcards/Main.kt:180-185 | an unknown term changes nothing; otherwise exactly the first card with the term is cut out and the others keep their order |
| Editing.RemoveCard | Flashcards/task/src/flashcards/Main.kt:177-186 | reads one line; reports Removed iff a card has that term, NoSuchCard naming the term otherwise |
| Editing.RemoveDeletesExactly | Flashcards/task/src/flashcards/Main.kt:180-183 | with distinct terms no card with the term is left, and every other card is kept |
| Editing.RemoveUndoesAdd | Flashcards/task/src/flashcards/Main.kt:177-223 | removing the term just added gives back the collection as it was |
| Editing.MergeCard | Flashcards/task/src/flashcards/Main.kt:141-147 | a known term has only its definition overwritten, with count and position kept; an unknown term is appended with the given count |
| Editing.MergeKeepsTermsDistinct | Flashcards/task/src/flashcards/Main.kt:141-147 | merging never makes a second card for a term; afterwards the term's card has the merged definition |
| Editing.MergeIdempotent | Flashcards/task/src/flashcards/Main.kt:141-147 | merging the same term and definition twice equals merging once, whatever the second count |
| Stats.MaxWrong | Flashcards/task/src/flashcards/Main.kt:87 | an upper bound on every count that some card reaches (0 when empty) |
| Stats.SelectCount | Flashcards/task/src/flashcards/Main.kt:87 | exactly the cards with a positive count equal to the threshold, as a subsequence of the collection |
| Stats.HardestCards | Flashcards/task/src/flashcards/Main.kt:87 | empty iff every count is 0; otherwise exactly the cards with a positive count that no card exceeds, in collection order |
| Stats.SelectCountSingle | Flashcards/task/src/flashcards/Main.kt:87-91 | the filter keeps exactly one card iff exactly one card has the given positive count |
| Stats.HardestReport | Flashcards/task/src/flashcards/Main.kt:86-96 | no errors iff all counts are 0. The singular report iff some card has more errors than every other card, and then it names that card and its count. Otherwise every card with the maximal count is named, in collection order. |
| Stats.ReportMessage | Flashcards/task/src/flashcards/Main.kt:89-96 | exactly the no-errors line for NoErrors. The singular line opens with the quoted term and ends " errors answering it", with no full stop. The plural line opens "The hardest cards are " and ends " errors answering them." |
| Stats.ResetStats | Flashcards/task/src/flashcards/Main.kt:81-84 | every count becomes 0; terms, definitions and order stay |
| Stats.ResetIdempotent | Flashcards/task/src/flashcards/Main.kt:81-84 | resetting twice is resetting once |
| Stats.ResetClearsHardest | Flashcards/task/src/flashcards/Main.kt:81-96 | after a reset there are no cards with errors, and terms stay distinct |
| Quiz.CheckAnswer | Flashcards/task/src/flashcards/Main.kt:226-237 | a right answer changes nothing. A wrong one adds exactly 1 to the asked card's count and to no other. The hint is present iff some card has the answer as its definition, and it names the first such card. |
| Quiz.VerdictMessage | Flashcards/task/src/flashcards/Main.kt:228-236 | "Correct!" exactly for a right answer. A wrong-answer line opens with the quoted right answer. Without a hint it ends with "."; with one it ends with the hint naming the quoted term. |
| Quiz.VerdictIgnoresCounts | Flashcards/task/src/flashcards/Main.kt:231-233 | the verdict depends only on terms and definitions, so earlier wrong answers do not change later verdicts |
| Quiz.CheckKeepsTermsDistinct | Flashcards/task/src/flashcards/Main.kt:226-237 | answering keeps the terms distinct |
| Quiz.AnswerStep | Flashcards/task/src/flashcards/Main.kt:192-194 | answering question i keeps every term and definition, adds the miss of answer i to card i's count only, and gives the verdict the collection before any answer would give |
| Quiz.Play | Flashcards/task/src/flashcards/Main.kt:189-196 | asks cards 1..n in collection order and nothing for n <= 0. Each verdict is the one for the original card. Each count grows by 1 exactly for the asked cards that got a wrong answer. A count past the collection stops with IndexOutOfBounds, and running out of typed lines stops with InputEnded. |
| Decimal.NatToString | Flashcards/task/src/flashcards/Main.kt:134 | a count is written as a non-empty run of ASCII digits without a leading zero |
| Decimal.ValueOfNatToString | Flashcards/task/src/flashcards/Main.kt:134 | the written digits denote the count |
| Decimal.ToIntOrNull | Flashcards/task/src/flashcards/Main.kt:164 | a digit string gives its value iff it is non-empty and fits `Int` |
| Decimal.IntRoundTrip | Flashcards/task/src/flashcards/Main.kt:164 | reading a written count that fits `Int` gives the count |
| Text.Join | Flashcards/task/src/flashcards/Main.kt:243 | no parts give "", one part gives itself |
| Text.IsBlank | Flashcards/task/src/flashcards/Main.kt:130 | scanning from the front, a name is blank iff every character is whitespace (the empty name included) |
| Record.MatchSound | Flashcards/task/src/flashcards/Main.kt:155-163 | whatever split `MatchRecord` returns is one the regex matches as a whole |
| Record.MatchRecord | Flashcards/task/src/flashcards/Main.kt:155-163 | a match starts with a quote, leaves exactly the five fixed characters around its three groups, and has only digits in the count group. Soundness, greediness (longest term) and uniqueness for a given term length are `MatchSound`, `MatchComplete` and `MatchUnique`. |
| Record.MatchComplete | Flashcards/task/src/flashcards/Main.kt:155 | every line the regex matches is accepted, and no split has a longer term than the one returned |
| Record.MatchUnique | Flashcards/task/src/flashcards/Main.kt:155 | two splits with terms of equal length are equal |
| Record.MatchWithoutQuoteInDefinition | Flashcards/task/src/flashcards/Main.kt:155 | a split whose definition holds no quote is the one read back, because no other split has a longer term |
| Record.FormatRecord | Flashcards/task/src/flashcards/Main.kt:134 | the pattern can match the written line with the card's term, definition and written count as a split iff neither term nor definition holds a line break. These are the groups read back whenever the definition holds no quote (`RecordRoundTrip`). |
| Record.ParseRecord | Flashcards/task/src/flashcards/Main.kt:155-164 | a card is read iff the regex matches the line. Its term and definition are the matched groups. Its count is the value of the digit group when that group is non-empty and fits `Int`, and 0 otherwise. |
| Record.RecordRoundTrip | Flashcards/task/src/flashcards/Main.kt:134-164 | reading back the exported line of a well-formed card gives the card |
| Record.ParseWithoutCount | Flashcards/task/src/flashcards/Main.kt:164 | a line with no digits after the closing quote is read with count 0 |
| Record.ParseAnyCount | Flashcards/task/src/flashcards/Main.kt:155-164 | a hand-written line with any digits is read with their value when it fits `Int`, leading zeros included, and with 0 otherwise |
| Record.ParseLeadingZeros | Flashcards/task/src/flashcards/Main.kt:164 | `"a"="b"007` is read with count 7 |
| Record.ParseOversizedCount | Flashcards/task/src/flashcards/Main.kt:164 | a hand-written line whose digit count is too large for `Int` is read with count 0 |
| Record.QuoteInDefinitionReadBack | Flashcards/task/src/flashcards/Main.kt:134-164 | a card whose definition `b"c` holds a quote but no `"="` is exported and read back unchanged |
| Record.SeparatorInDefinitionIsMisread | Flashcards/task/src/flashcards/Main.kt:155 | a definition holding `"="` is split wrongly on import: the greedy term takes part of it |
| Transfer.MatchingLines | Flashcards/task/src/flashcards/Main.kt:160 | exactly the lines the regex accepts, each kept as often as it occurs in the file |
| Transfer.ImportLine | Flashcards/task/src/flashcards/Main.kt:160-166 | a line the regex rejects changes nothing. A matching line with an unknown term appends the card read. One with a known term overwrites only the definition of the first card with that term, keeping its count and position. Terms stay distinct. |
| Transfer.ImportLines | Flashcards/task/src/flashcards/Main.kt:158-170 | the count is the number of matching lines; terms stay distinct |
| Transfer.ImportGrowth | Flashcards/task/src/flashcards/Main.kt:141-170 | the import never removes a card and adds at most one per matching line |
| Transfer.ImportSkipsNonMatching | Flashcards/task/src/flashcards/Main.kt:160-167 | lines the regex rejects have no effect on the collection or the count |
| Transfer.ImportConcat | Flashcards/task/src/flashcards/Main.kt:159-168 | importing a file in two pieces equals importing the pieces one after the other, with counts added |
| Transfer.ImportCountsMerges | Flashcards/task/src/flashcards/Main.kt:158-170 | a matching line for a known term is counted although the collection does not grow |
| Transfer.ImportFile | Flashcards/task/src/flashcards/Main.kt:154-174 | a missing file is reported and changes nothing; otherwise the loaded count is the number of matching lines |
| Transfer.ExportLines | Flashcards/task/src/flashcards/Main.kt:132-135 | one record line per card, in collection order |
| Transfer.ExportTo | Flashcards/task/src/flashcards/Main.kt:129-138 | a blank file name writes nothing. Otherwise the file is exactly the exported lines, one per card, and the line of each well-formed card reads back as that card. |
| Transfer.ImportExported | Flashcards/task/src/flashcards/Main.kt:133-166 | importing exported cards with new, distinct terms appends them in order |
| Transfer.ExportImportRoundTrip | Flashcards/task/src/flashcards/Main.kt:129-170 | exporting well-formed cards with distinct terms and importing them into an empty collection gives them back in order, with their counts; one card is reported per line |
| Transfer.ExampleFirstRecord | Flashcards/task/src/flashcards/Main.kt:156-162 | the line `"x"="y"3` is read as card `x` with definition `y` and count 3 |
| Transfer.ExampleSecondRecord | Flashcards/task/src/flashcards/Main.kt:156-162 | the line `"x"="z"` is read with count 0 |
| Transfer.ImportSameTermTwice | Flashcards/task/src/flashcards/Main.kt:141-166 | a record with count n followed by a record for the same term with count m leaves one card, with the second definition and count n: the second count is ignored |
| Menu.Ordinal | Flashcards/task/src/flashcards/Main.kt:14-25 | each item sits in `MenuItems.values()` at its ordinal |
| Menu.FirstWithDisplay | Flashcards/task/src/flashcards/Main.kt:58 | the item returned displays as the input; nothing only when no item does |
| Menu.Dispatch | Flashcards/task/src/flashcards/Main.kt:56-59 | a real command is chosen only for its exact display text; any other input is WrongInput |
| Menu.DispatchDisplay | Flashcards/task/src/flashcards/Main.kt:14-25 | typing an item's display text selects that item |
| Menu.PositiveOrdinal | Flashcards/task/src/flashcards/Main.kt:243 | exactly the items with ordinal above 0, and never more items than it was given; order and multiplicity are `PositiveOrdinalConcat` |
| Menu.PositiveOrdinalSingle | Flashcards/task/src/flashcards/Main.kt:243 | a one-item list is kept iff its item's ordinal is above 0, and dropped otherwise |
| Menu.PositiveOrdinalConcat | Flashcards/task/src/flashcards/Main.kt:243 | filtering a concatenation filters each part in place, so order and multiplicity are kept |
| Menu.Prompt | Flashcards/task/src/flashcards/Main.kt:240-246 | the prompt built from the filtered enum is "Input the action (", the nine command texts in declaration order joined by ", ", then "):" |
| Menu.PromptItems | Flashcards/task/src/flashcards/Main.kt:240-246 | the prompt's list holds the display text of every command except "try again", each exactly once |
| Startup.ScanPairsSpec | Flashcards/task/src/flashcards/Main.kt:256-271 | the loop stops with WrongParameters iff an examined flag position holds neither flag. Otherwise each file is the value of the last examined pair for its flag, or "" if there is none. |
| Startup.ScanPairs | Flashcards/task/src/flashcards/Main.kt:256-271 | the loop never gives NoSession, and it starts a session only when every examined flag position holds a flag |
| Startup.LaunchAsWritten | Flashcards/task/src/flashcards/Main.kt:249-273 | an odd number of arguments does nothing; no arguments start a plain session |
| Startup.AsWrittenReadsFirstPairs | Flashcards/task/src/flashcards/Main.kt:257 | as written, `main` decides from the first `size / 4 + 1` pairs only |
| Startup.LaunchIntended | Flashcards/task/src/flashcards/Main.kt:253-272 | with every pair examined: an unknown flag anywhere stops, and each file is the last value given for its flag |
| Startup.AgreeOnTwoPairs | Flashcards/task/src/flashcards/Main.kt:257 | with at most two pairs the loop as written examines every pair |
| Startup.ThirdPairIgnored | Flashcards/task/src/flashcards/Main.kt:257 | a third `-export` pair is ignored as written |
| Startup.ThirdFlagUnchecked | Flashcards/task/src/flashcards/Main.kt:257-266 | an unknown flag in a third pair does not stop the program as written |

## Findings

| source | as written | input that shows it | evidently intended | confidence | as-written member | corrected member |
|---|---|---|---|---|---|---|
| Flashcards/task/src/flashcards/Main.kt:257 | `while (i <= args.size / 2)` stops early, so only pairs starting at positions up to `size / 2` are examined | `-import a -export b -export c` starts with export file `b`; `-import a -export b -debug c` starts a session instead of printing "wrong paramaters" | every flag/value pair is examined (`i < args.size`) | not executed; high that the bound is unintended | Startup.LaunchAsWritten | Startup.LaunchIntended |

## Left out

- The transcript buffer, `log`/`writeLogs`, and every `print`/`println`: console output and its recording are plumbing. Only the message decisions are modelled: outcome tags, the hardest-card report and the answer verdict.
- The `do … while (true)` loop of `start`, the initial import and the export on exit. They only chain the modelled handlers with console and file I/O.
- The `toInt` retry loop of `ask`. `Quiz.Play` takes the count as an already-parsed `int`.
- File access (`File.exists`, `writeText`, `appendText`, `forEachLine`). A file is its sequence of lines. Splitting file text into lines is not modelled. Cards with a line break in a term or definition are outside the round trip anyway.
- Card: `wrongAnswer` is a `nat`, so the 32-bit wrap-around of `wrongAnswer++` at `Int.MAX_VALUE` is not modelled. In the program a wrapped count is exported as a negative number (`-2147483648`), which the record regex rejects, so that card is lost on import. Only reading a count back checks the `Int` bound, through `toIntOrNull`.
- Quiz.VerdictMessage: its contract states how each line opens and ends, not that nothing else sits between them.
- Stats.ReportMessage: its contract states how each line opens and ends. The count digits and the joined list of terms in between are left to its body.
- Text.Join: its contract covers only zero and one part. The separator placement is left to its body.
- Exact wording of the other messages ("The card has been removed.", "N cards have been loaded.", …). Only the information they carry is modelled.

=== FILE: cards.dfy ===
/** The game's card collection: an ordered sequence of `FlashCard(term, definition,
    wrongAnswer)` values in which the term is the key. */
module Cards {
  import opened Options

  /** One flash card; `wrongAnswer` counts the wrong answers given for it. */
  datatype Card = Card(term: string, definition: string, wrongAnswer: nat)

  /** What a console handler leaves behind: the collection, what it reported, and the
      typed lines it did not read. `outcome` is None when the typed lines ran out before
      the handler finished (Kotlin's `readln` throws there). */
  datatype Handled<O> = Handled(cards: seq<Card>, outcome: Option<O>, rest: seq<string>)

  /** The collection invariant: at most one card per term. */
  predicate DistinctTerms(cards: seq<Card>) {
    forall i, j :: 0 <= i < j < |cards| ==> cards[i].term != cards[j].term
  }

  predicate HasTerm(cards: seq<Card>, term: string) {
    exists i :: 0 <= i < |cards| && cards[i].term == term
  }

  predicate HasDefinition(cards: seq<Card>, definition: string) {
    exists i :: 0 <= i < |cards| && cards[i].definition == definition
  }

  /** Position of the first card with this term (`cards.firstOrNull { it.term == term }`). */
  function FindTerm(cards: seq<Card>, term: string): (r: Option<nat>)
    ensures r.Some? ==> r.value < |cards| && cards[r.value].term == term
    ensures r.Some? ==> forall j :: 0 <= j < r.value ==> cards[j].term != term
    ensures r.None? <==> !HasTerm(cards, term)
  {
    if |cards| == 0 then None
    else if cards[0].term == term then Some(0)
    else match FindTerm(cards[1..], term)
      case None =>
        assert forall j :: 1 <= j < |cards| ==> cards[j] == cards[1..][j - 1];
        None
      case Some(k) => Some(k + 1)
  }

  /** Position of the first card with this definition
      (`cards.first { it.definition == answer }`, None where Kotlin throws). */
  function FindDefinition(cards: seq<Card>, definition: string): (r: Option<nat>)
    ensures r.Some? ==> r.value < |cards| && cards[r.value].definition == definition
    ensures r.Some? ==> forall j :: 0 <= j < r.value ==> cards[j].definition != definition
    ensures r.None? <==> !HasDefinition(cards, definition)
  {
    if |cards| == 0 then None
    else if cards[0].definition == definition then Some(0)
    else match FindDefinition(cards[1..], definition)
      case None =>
        assert forall j :: 1 <= j < |cards| ==> cards[j] == cards[1..][j - 1];
        None
      case Some(k) => Some(k + 1)
  }

  /** The first card carrying the term is the one found. */
  lemma {:induction false} FindTermAt(cards: seq<Card>, term: string, i: nat)
    requires i < |cards| && cards[i].term == term
    requires forall j :: 0 <= j < i ==> cards[j].term != term
    ensures FindTerm(cards, term) == Some(i)
  {
    if i > 0 {
      FindTermAt(cards[1..], term, i - 1);
    }
  }

  /** In a collection with distinct terms the card found for a term is the only one. */
  lemma FindTermUnique(cards: seq<Card>, term: string, i: nat)
    requires DistinctTerms(cards)
    requires i < |cards| && cards[i].term == term
    ensures FindTerm(cards, term) == Some(i)
  {
    FindTermAt(cards, term, i);
  }

  /** `a` keeps cards of `b` in their order, possibly leaving some out. */
  predicate IsSubsequence(a: seq<Card>, b: seq<Card>) {
    if |a| == 0 then true
    else if |b| == 0 then false
    else (a[0] == b[0] && IsSubsequence(a[1..], b[1..])) || IsSubsequence(a, b[1..])
  }
}

=== FILE: decimal.dfy ===
/** Decimal digit strings: how a count is written after a record (`Int.toString`)
    and read back (`String.toIntOrNull`, whose result must fit a 32-bit `Int`). */
module Decimal {
  import opened Options

  /** The largest value of Kotlin's `Int`. */
  const MaxInt: nat := 0x7FFF_FFFF

  /** The regex class `\d` without the Unicode flag: ASCII digits only. */
  predicate IsDigit(ch: char) {
    '0' <= ch <= '9'
  }

  predicate AllDigits(s: string) {
    forall i :: 0 <= i < |s| ==> IsDigit(s[i])
  }

  function DigitValue(ch: char): (d: nat)
    requires IsDigit(ch)
    ensures d < 10
  {
    ch as int - '0' as int
  }

  function DigitChar(d: nat): (ch: char)
    requires d < 10
    ensures IsDigit(ch) && DigitValue(ch) == d
  {
    ('0' as int + d) as char
  }

  /** The number a digit string denotes, most significant digit first. */
  function Value(s: string): nat
    requires AllDigits(s)
  {
    if |s| == 0 then 0 else Value(s[..|s| - 1]) * 10 + DigitValue(s[|s| - 1])
  }

  /** `Int.toString` of a non-negative count: no sign, no leading zero, "0" for zero. */
  function NatToString(n: nat): (s: string)
    ensures |s| >= 1 && AllDigits(s)
    ensures |s| > 1 ==> s[0] != '0'
  {
    if n < 10 then [DigitChar(n)] else NatToString(n / 10) + [DigitChar(n % 10)]
  }

  /** Writing a count and reading the digits back gives the count again. */
  lemma {:induction false} ValueOfNatToString(n: nat)
    ensures Value(NatToString(n)) == n
  {
    if n >= 10 {
      var s := NatToString(n);
      assert s[..|s| - 1] == NatToString(n / 10);
      ValueOfNatToString(n / 10);
    }
  }

  /** `toIntOrNull` on a string of digits: nothing for the empty string or for a value
      too large for `Int`. */
  function ToIntOrNull(s: string): (r: Option<nat>)
    requires AllDigits(s)
    ensures r.Some? <==> |s| > 0 && Value(s) <= MaxInt
    ensures r.Some? ==> r.value == Value(s)
  {
    if |s| == 0 || Value(s) > MaxInt then None else Some(Value(s))
  }

  lemma IntRoundTrip(n: nat)
    requires n <= MaxInt
    ensures ToIntOrNull(NatToString(n)) == Some(n)
  {
    ValueOfNatToString(n);
  }
}

=== FILE: editing.dfy ===
/** The handlers that add, remove and merge cards: `addFlashCard`, `remove` and the
    three-argument `importFlashCard` of `FlashCardsGame`. */
module Editing {
  import opened Options
  import opened Cards

  datatype AddOutcome =
    | Added
    | TermExists(term: string)              // "The card ... already exists."
    | DefinitionExists(definition: string)  // "The definition ... already exists."

  datatype RemoveOutcome =
    | Removed                   // "The card has been removed."
    | NoSuchCard(term: string)  // "Can't remove ...: there is no such card."

  /** A typed term is taken only when it is non-empty and no card has it yet. */
  predicate TermAccepted(cards: seq<Card>, term: string) {
    term != "" && !HasTerm(cards, term)
  }

  /** A typed definition is taken only when it is non-empty and no card has it yet. */
  predicate DefinitionAccepted(cards: seq<Card>, definition: string) {
    definition != "" && !HasDefinition(cards, definition)
  }

  /** `addFlashCard`: read a term, then a definition; the first rejected line ends the
      add (there is no second prompt), and a rejected term ends it before the definition
      is read. */
  function AddCard(cards: seq<Card>, input: seq<string>): (r: Handled<AddOutcome>)
    ensures r.outcome == Some(Added) <==>
              |input| >= 2 && TermAccepted(cards, input[0]) && DefinitionAccepted(cards, input[1])
    ensures r.outcome == Some(Added) ==>
              r.cards == cards + [Card(input[0], input[1], 0)] && r.rest == input[2..]
    ensures r.outcome != Some(Added) ==> r.cards == cards
    ensures (r.outcome.Some? && r.outcome.value.TermExists?) <==>
              |input| >= 1 && !TermAccepted(cards, input[0])
    ensures r.outcome.Some? && r.outcome.value.TermExists? ==>
              r.outcome.value.term == input[0] && r.rest == input[1..]
    ensures (r.outcome.Some? && r.outcome.value.DefinitionExists?) <==>
              |input| >= 2 && TermAccepted(cards, input[0]) && !DefinitionAccepted(cards, input[1])
    ensures r.outcome.Some? && r.outcome.value.DefinitionExists? ==>
              r.outcome.value.definition == input[1] && r.rest == input[2..]
    ensures r.outcome.None? ==> r.rest == []
  {
    if |input| == 0 then Handled(cards, None, [])
    else
      var term := input[0];
      if !TermAccepted(cards, term) then Handled(cards, Some(TermExists(term)), input[1..])
      else if |input| == 1 then Handled(cards, None, [])
      else
        var definition := input[1];
        if !DefinitionAccepted(cards, definition) then
          Handled(cards, Some(DefinitionExists(definition)), input[2..])
        else
          Handled(cards + [Card(term, definition, 0)], Some(Added), input[2..])
  }

  /** Adding keeps the terms distinct, and the new card is found at the end. */
  lemma AddKeepsTermsDistinct(cards: seq<Card>, input: seq<string>)
    requires DistinctTerms(cards)
    ensures DistinctTerms(AddCard(cards, input).cards)
    ensures AddCard(cards, input).outcome == Some(Added) ==>
              FindTerm(AddCard(cards, input).cards, input[0]) == Some(|cards|)
  {
    var r := AddCard(cards, input);
    if r.outcome == Some(Added) {
      assert forall i :: 0 <= i < |cards| ==> cards[i].term != input[0];
      FindTermUnique(r.cards, input[0], |cards|);
    }
  }

  /** `remove` once the term is known: the first card with that term goes, the others
      keep their order; an unknown term changes nothing. */
  function RemoveTerm(cards: seq<Card>, term: string): (r: seq<Card>)
    ensures !HasTerm(cards, term) ==> r == cards
    ensures HasTerm(cards, term) ==> |r| == |cards| - 1
    ensures HasTerm(cards, term) ==>
              (exists i :: 0 <= i < |cards| && cards[i].term == term && r == cards[..i] + cards[i + 1..]
                && (forall j :: 0 <= j < i ==> cards[j].term != term))
  {
    match FindTerm(cards, term)
    case None => cards
    case Some(i) => cards[..i] + cards[i + 1..]
  }

  /** `remove`: read the term to delete. */
  function RemoveCard(cards: seq<Card>, input: seq<string>): (r: Handled<RemoveOutcome>)
    ensures r.outcome.None? <==> |input| == 0
    ensures r.outcome == Some(Removed) <==> |input| >= 1 && HasTerm(cards, input[0])
    ensures r.outcome.Some? ==> r.rest == input[1..]
    ensures r.outcome.Some? && r.outcome.value.NoSuchCard? ==>
              r.outcome.value.term == input[0] && r.cards == cards
    ensures |input| >= 1 ==> r.cards == RemoveTerm(cards, input[0])
    ensures r.outcome.None? ==> r.cards == cards
  {
    if |input| == 0 then Handled(cards, None, [])
    else if HasTerm(cards, input[0]) then Handled(RemoveTerm(cards, input[0]), Some(Removed), input[1..])
    else Handled(cards, Some(NoSuchCard(input[0])), input[1..])
  }

  /** Cutting position `i` out shifts every later card down by one. */
  lemma CutAt(cards: seq<Card>, i: nat)
    requires i < |cards|
    ensures var r := cards[..i] + cards[i + 1..];
              |r| == |cards| - 1 && forall j :: 0 <= j < |r| ==> r[j] == cards[if j < i then j else j + 1]
  {
  }

  /** With distinct terms, removing a term deletes exactly the one card that has it:
      no card with the term is left, and every other card is kept. */
  lemma RemoveDeletesExactly(cards: seq<Card>, term: string)
    requires DistinctTerms(cards)
    ensures DistinctTerms(RemoveTerm(cards, term))
    ensures !HasTerm(RemoveTerm(cards, term), term)
    ensures forall c :: c in RemoveTerm(cards, term) <==> c in cards && c.term != term
  {
    var r := RemoveTerm(cards, term);
    if HasTerm(cards, term) {
      var i := FindTerm(cards, term).value;
      assert r == cards[..i] + cards[i + 1..];
      CutAt(cards, i);
      forall c | c in cards && c.term != term
        ensures c in r
      {
        var k :| 0 <= k < |cards| && cards[k] == c;
        if k < i { assert r[k] == c; } else { assert r[k - 1] == c; }
      }
    }
  }

  /** Removing the term just added gives back the collection as it was. */
  lemma RemoveUndoesAdd(cards: seq<Card>, input: seq<string>)
    requires AddCard(cards, input).outcome == Some(Added)
    ensures RemoveTerm(AddCard(cards, input).cards, input[0]) == cards
  {
    var r := AddCard(cards, input).cards;
    assert forall i :: 0 <= i < |cards| ==> cards[i].term != input[0];
    FindTermAt(r, input[0], |cards|);
    assert r[..|cards|] == cards;
  }

  /** The three-argument `importFlashCard`: a known term only has its definition
      overwritten (its count and position stay); an unknown term is appended with the
      given count. */
  function MergeCard(cards: seq<Card>, term: string, definition: string, wrongAnswer: nat): (r: seq<Card>)
    ensures |r| == if HasTerm(cards, term) then |cards| else |cards| + 1
    ensures !HasTerm(cards, term) ==> r == cards + [Card(term, definition, wrongAnswer)]
    ensures HasTerm(cards, term) ==>
              (exists i :: 0 <= i < |cards| && cards[i].term == term
                && (forall j :: 0 <= j < i ==> cards[j].term != term)
                && r == cards[i := Card(term, definition, cards[i].wrongAnswer)])
  {
    match FindTerm(cards, term)
    case None => cards + [Card(term, definition, wrongAnswer)]
    case Some(i) => cards[i := cards[i].(definition := definition)]
  }

  /** Merging never creates a second card for a term, and afterwards the term's card
      carries the merged definition. */
  lemma MergeKeepsTermsDistinct(cards: seq<Card>, term: string, definition: string, wrongAnswer: nat)
    ensures DistinctTerms(cards) ==> DistinctTerms(MergeCard(cards, term, definition, wrongAnswer))
    ensures HasTerm(MergeCard(cards, term, definition, wrongAnswer), term)
    ensures var r := MergeCard(cards, term, definition, wrongAnswer);
              DistinctTerms(cards) ==> forall i :: 0 <= i < |r| && r[i].term == term ==> r[i].definition == definition
  {
    var r := MergeCard(cards, term, definition, wrongAnswer);
    if !HasTerm(cards, term) {
      assert r[|cards|].term == term;
    } else {
      var i := FindTerm(cards, term).value;
      assert r[i].term == term;
    }
  }

  /** Merging the same term and definition twice is the same as merging it once, whatever
      count the second merge carries. */
  lemma MergeIdempotent(cards: seq<Card>, term: string, definition: string, n: nat, m: nat)
    ensures MergeCard(MergeCard(cards, term, definition, n), term, definition, m)
            == MergeCard(cards, term, definition, n)
  {
    var r := MergeCard(cards, term, definition, n);
    if !HasTerm(cards, term) {
      assert r[|cards|].term == term;
      assert forall j :: 0 <= j < |cards| ==> cards[j].term != term;
      FindTermAt(r, term, |cards|);
    } else {
      var i := FindTerm(cards, term).value;
      assert forall j :: 0 <= j < i ==> r[j] == cards[j];
      FindTermAt(r, term, i);
    }
  }
}

=== FILE: launch.dfy ===
/** The start-up decision of `main`: which file to import before the menu and which to
    export on exit, read from `-import <path>` / `-export <path>` pairs. */
module Startup {

  /** What `main` does: start a session with these files ("" for none), print
      "wrong paramaters" and stop, or do nothing at all. */
  datatype Launch = Start(importFile: string, exportFile: string) | WrongParameters | NoSession

  predicate IsFlag(s: string) {
    s == "-import" || s == "-export"
  }

  /** The flag/value loop of `main` from position `i`: the pair at `i` is examined while
      `i <= bound`, then `i` moves on by 2; a later pair overrides an earlier one. */
  function ScanPairs(args: seq<string>, i: nat, bound: int, importFile: string, exportFile: string): (r: Launch)
    requires |args| % 2 == 0 && i % 2 == 0 && bound < |args|
    ensures !r.NoSession?
    ensures r.Start? ==> forall j :: Examined(i, bound, j) ==> IsFlag(args[j])
    decreases |args| - i
  {
    if i > bound then Start(importFile, exportFile)
    else if args[i] == "-import" then ScanPairs(args, i + 2, bound, args[i + 1], exportFile)
    else if args[i] == "-export" then ScanPairs(args, i + 2, bound, importFile, args[i + 1])
    else WrongParameters
  }

  /** The flag positions the loop looks at: the even positions from `i` up to `bound`. */
  predicate Examined(i: nat, bound: int, j: int) {
    i <= j <= bound && j % 2 == 0
  }

  /** No examined position holds `flag`. */
  ghost predicate FlagAbsent(args: seq<string>, i: nat, bound: int, flag: string)
    requires bound < |args|
  {
    forall j :: Examined(i, bound, j) ==> args[j] != flag
  }

  /** `j` is the last examined position holding `flag`. */
  ghost predicate LastFlagAt(args: seq<string>, i: nat, bound: int, flag: string, j: int)
    requires bound < |args|
  {
    Examined(i, bound, j) && args[j] == flag && FlagAbsent(args, j + 1, bound, flag)
  }

  /** The value the loop keeps for `flag`: that of the last examined pair carrying it,
      or `initial` when there is none. */
  ghost predicate KeepsLast(args: seq<string>, i: nat, bound: int, flag: string, initial: string, value: string)
    requires bound < |args|
  {
    if FlagAbsent(args, i, bound, flag) then value == initial
    else exists j :: LastFlagAt(args, i, bound, flag, j) && j + 1 < |args| && value == args[j + 1]
  }

  /** What the loop decides: it stops on the first examined position holding neither
      flag; otherwise each file is the value of the last examined pair naming it. */
  lemma {:induction false} ScanPairsSpec(args: seq<string>, i: nat, bound: int, importFile: string, exportFile: string)
    requires |args| % 2 == 0 && i % 2 == 0 && bound < |args|
    ensures !ScanPairs(args, i, bound, importFile, exportFile).NoSession?
    ensures ScanPairs(args, i, bound, importFile, exportFile).WrongParameters? <==>
              exists j :: Examined(i, bound, j) && !IsFlag(args[j])
    ensures ScanPairs(args, i, bound, importFile, exportFile).Start? ==>
              KeepsLast(args, i, bound, "-import", importFile, ScanPairs(args, i, bound, importFile, exportFile).importFile)
    ensures ScanPairs(args, i, bound, importFile, exportFile).Start? ==>
              KeepsLast(args, i, bound, "-export", exportFile, ScanPairs(args, i, bound, importFile, exportFile).exportFile)
    decreases |args| - i
  {
    if i <= bound {
      Shift(args, i, bound);
      if args[i] == "-import" {
        var r := ScanPairs(args, i + 2, bound, args[i + 1], exportFile);
        ScanPairsSpec(args, i + 2, bound, args[i + 1], exportFile);
        if r.Start? {
          KeepsLastOnFlag(args, i, bound, "-import", importFile, r.importFile);
          KeepsLastPastOther(args, i, bound, "-export", exportFile, r.exportFile);
        }
      } else if args[i] == "-export" {
        var r := ScanPairs(args, i + 2, bound, importFile, args[i + 1]);
        ScanPairsSpec(args, i + 2, bound, importFile, args[i + 1]);
        if r.Start? {
          KeepsLastPastOther(args, i, bound, "-import", importFile, r.importFile);
          KeepsLastOnFlag(args, i, bound, "-export", exportFile, r.exportFile);
        }
      }
    }
  }

  /** A pair holding `flag` at `i` sets the value unless a later examined pair does. */
  lemma KeepsLastOnFlag(args: seq<string>, i: nat, bound: int, flag: string, initial: string, value: string)
    requires i % 2 == 0 && i <= bound < |args| && |args| % 2 == 0 && args[i] == flag
    requires KeepsLast(args, i + 2, bound, flag, args[i + 1], value)
    ensures KeepsLast(args, i, bound, flag, initial, value)
  {
    Shift(args, i, bound);
    if FlagAbsent(args, i + 2, bound, flag) {
      assert LastFlagAt(args, i, bound, flag, i);
    } else {
      var j :| LastFlagAt(args, i + 2, bound, flag, j) && j + 1 < |args| && value == args[j + 1];
      assert LastFlagAt(args, i, bound, flag, j);
    }
  }

  /** A pair at `i` holding another flag leaves the value for `flag` alone. */
  lemma KeepsLastPastOther(args: seq<string>, i: nat, bound: int, flag: string, initial: string, value: string)
    requires i % 2 == 0 && i <= bound < |args| && |args| % 2 == 0 && args[i] != flag
    requires KeepsLast(args, i + 2, bound, flag, initial, value)
    ensures KeepsLast(args, i, bound, flag, initial, value)
  {
    Shift(args, i, bound);
    if !FlagAbsent(args, i + 2, bound, flag) {
      var j :| LastFlagAt(args, i + 2, bound, flag, j) && j + 1 < |args| && value == args[j + 1];
      assert LastFlagAt(args, i, bound, flag, j);
    }
  }

  /** The positions examined from `i` are `i` and those examined from `i + 2`. */
  lemma Shift(args: seq<string>, i: nat, bound: int)
    requires i % 2 == 0 && i <= bound < |args|
    ensures forall j :: Examined(i, bound, j) <==> j == i || Examined(i + 2, bound, j)
  {
  }

  /** `main` as written: only the pairs starting at a position up to `|args| / 2` are
      examined. */
  function LaunchAsWritten(args: seq<string>): (r: Launch)
    ensures r.NoSession? <==> |args| % 2 == 1
    ensures |args| == 0 ==> r == Start("", "")
  {
    if |args| == 0 then Start("", "")
    else if |args| % 2 == 0 then
      ScanPairsSpec(args, 0, |args| / 2, "", "");
      ScanPairs(args, 0, |args| / 2, "", "")
    else NoSession
  }

  /** `main` with every pair examined, as the loop is evidently meant to work. */
  function LaunchIntended(args: seq<string>): (r: Launch)
    ensures r.NoSession? <==> |args| % 2 == 1
    ensures |args| % 2 == 0 ==>
              (r.WrongParameters? <==> exists j :: 0 <= j < |args| && j % 2 == 0 && !IsFlag(args[j]))
    ensures |args| % 2 == 0 && r.Start? ==>
              KeepsLast(args, 0, |args| - 1, "-import", "", r.importFile)
              && KeepsLast(args, 0, |args| - 1, "-export", "", r.exportFile)
  {
    if |args| % 2 == 0 then
      ScanPairsSpec(args, 0, |args| - 1, "", "");
      ScanPairs(args, 0, |args| - 1, "", "")
    else NoSession
  }

  /** Raising an even bound by one adds no position to examine. */
  lemma {:induction false} ScanOddBound(args: seq<string>, i: nat, b: int, x: string, y: string)
    requires |args| % 2 == 0 && i % 2 == 0 && b % 2 == 0 && b + 1 < |args|
    ensures ScanPairs(args, i, b, x, y) == ScanPairs(args, i, b + 1, x, y)
    decreases |args| - i
  {
    if i <= b {
      if args[i] == "-import" {
        ScanOddBound(args, i + 2, b, args[i + 1], y);
      } else if args[i] == "-export" {
        ScanOddBound(args, i + 2, b, x, args[i + 1]);
      }
    }
  }

  /** The loop never reads past the pair that starts at `b`. */
  lemma {:induction false} ScanPrefix(args: seq<string>, n: nat, i: nat, b: int, x: string, y: string)
    requires |args| % 2 == 0 && n % 2 == 0 && i % 2 == 0 && b < n <= |args|
    ensures ScanPairs(args, i, b, x, y) == ScanPairs(args[..n], i, b, x, y)
    decreases |args| - i
  {
    if i <= b {
      assert args[..n][i] == args[i] && args[..n][i + 1] == args[i + 1];
      if args[i] == "-import" {
        ScanPrefix(args, n, i + 2, b, args[i + 1], y);
      } else if args[i] == "-export" {
        ScanPrefix(args, n, i + 2, b, x, args[i + 1]);
      }
    }
  }

  /** As written, `main` decides from the first `|args| / 4 + 1` pairs alone, exactly as
      if the later pairs were not there. */
  lemma AsWrittenReadsFirstPairs(args: seq<string>)
    requires |args| > 0 && |args| % 2 == 0
    ensures 2 * (|args| / 4 + 1) <= |args|
    ensures LaunchAsWritten(args) == LaunchIntended(args[..2 * (|args| / 4 + 1)])
  {
    var n := 2 * (|args| / 4 + 1);
    var b := |args| / 2;
    ScanPrefix(args, n, 0, b, "", "");
    if b % 2 == 0 {
      ScanOddBound(args[..n], 0, b, "", "");
    }
  }

  /** Up to two pairs the two agree, since `|args| / 2` then reaches the last pair. */
  lemma AgreeOnTwoPairs(args: seq<string>)
    requires 0 < |args| <= 4 && |args| % 2 == 0
    ensures LaunchAsWritten(args) == LaunchIntended(args)
  {
    AsWrittenReadsFirstPairs(args);
    assert args[..|args|] == args;
  }

  /** As written, a third pair is never looked at: its export path is lost... */
  lemma ThirdPairIgnored()
    ensures LaunchAsWritten(["-import", "a", "-export", "b", "-export", "c"]) == Start("a", "b")
    ensures LaunchIntended(["-import", "a", "-export", "b", "-export", "c"]) == Start("a", "c")
  {
  }

  /** ... and an unknown flag in it does not stop the program. */
  lemma ThirdFlagUnchecked()
    ensures LaunchAsWritten(["-import", "a", "-export", "b", "-debug", "c"]) == Start("a", "b")
    ensures LaunchIntended(["-import", "a", "-export", "b", "-debug", "c"]) == WrongParameters
  {
  }
}

=== FILE: menu.dfy ===
/** The command menu of `FlashCardsGame.start`: the `MenuItems` enum, the prompt that
    lists it, and the exact-match dispatch of a typed line. */
module Menu {
  import opened Options
  import Text

  /** The menu items, in the enum's declaration order. */
  datatype MenuItem = WrongInput | Add | Remove | Import | Export | Ask | Exit | Log | Hardest | Reset

  /** `MenuItems.values()`: every item, at the position of its ordinal. */
  const Items: seq<MenuItem> := [WrongInput, Add, Remove, Import, Export, Ask, Exit, Log, Hardest, Reset]

  function Display(m: MenuItem): string {
    match m
    case WrongInput => "try again"
    case Add => "add"
    case Remove => "remove"
    case Import => "import"
    case Export => "export"
    case Ask => "ask"
    case Exit => "exit"
    case Log => "log"
    case Hardest => "hardest card"
    case Reset => "reset stats"
  }

  /** The position of an item in `Items` (Kotlin's `ordinal`). */
  function Ordinal(m: MenuItem): (k: nat)
    ensures k < |Items| && Items[k] == m
  {
    match m
    case WrongInput => 0
    case Add => 1
    case Remove => 2
    case Import => 3
    case Export => 4
    case Ask => 5
    case Exit => 6
    case Log => 7
    case Hardest => 8
    case Reset => 9
  }

  /** The first item of `items` whose display text is `input`. */
  function FirstWithDisplay(items: seq<MenuItem>, input: string): (r: Option<MenuItem>)
    ensures r.Some? ==> r.value in items && Display(r.value) == input
    ensures r.None? ==> forall i :: 0 <= i < |items| ==> Display(items[i]) != input
  {
    if |items| == 0 then None
    else if Display(items[0]) == input then Some(items[0])
    else
      var r := FirstWithDisplay(items[1..], input);
      assert forall i :: 1 <= i < |items| ==> items[i] == items[1..][i - 1];
      r
  }

  lemma NoItemDisplays(input: string)
    requires forall i :: 0 <= i < |Items| ==> Display(Items[i]) != input
    ensures forall m: MenuItem :: Display(m) != input
  {
    forall m: MenuItem
      ensures Display(m) != input
    {
      assert Items[Ordinal(m)] == m;
    }
  }

  /** The command a typed line selects: the item whose display text it is exactly;
      anything else, "try again" included, is WrongInput. */
  function Dispatch(input: string): (r: MenuItem)
    ensures r != WrongInput ==> Display(r) == input
    ensures r == WrongInput ==> forall m: MenuItem :: m != WrongInput ==> Display(m) != input
  {
    match FirstWithDisplay(Items, input)
    case Some(m) => m
    case None =>
      NoItemDisplays(input);
      WrongInput
  }

  /** Typing an item's display text selects that item: the texts are all different. */
  lemma DispatchDisplay(m: MenuItem)
    ensures Dispatch(Display(m)) == m
  {
  }

  function Displays(items: seq<MenuItem>): (r: seq<string>)
    ensures |r| == |items| && forall i :: 0 <= i < |items| ==> r[i] == Display(items[i])
  {
    if |items| == 0 then [] else [Display(items[0])] + Displays(items[1..])
  }

  /** Kotlin's `filter { it.ordinal > 0 }`: the items other than WrongInput, in order. */
  function PositiveOrdinal(items: seq<MenuItem>): (r: seq<MenuItem>)
    ensures forall m :: m in r <==> m in items && Ordinal(m) > 0
    ensures |r| <= |items|
  {
    if |items| == 0 then []
    else
      assert forall m :: m in items <==> m == items[0] || m in items[1..];
      if Ordinal(items[0]) > 0 then [items[0]] + PositiveOrdinal(items[1..])
      else PositiveOrdinal(items[1..])
  }

  /** A one-item list is kept iff its item's ordinal is above 0. */
  lemma PositiveOrdinalSingle(m: MenuItem)
    ensures PositiveOrdinal([m]) == if Ordinal(m) > 0 then [m] else []
  {
  }

  /** The filter keeps order and multiplicity: filtering a concatenation filters each
      part in place. With the one-item cases fixed by `PositiveOrdinal`'s contract, this
      determines the result for every list. */
  lemma {:induction false} PositiveOrdinalConcat(a: seq<MenuItem>, b: seq<MenuItem>)
    ensures PositiveOrdinal(a + b) == PositiveOrdinal(a) + PositiveOrdinal(b)
  {
    if |a| > 0 {
      assert (a + b)[1..] == a[1..] + b;
      PositiveOrdinalConcat(a[1..], b);
    } else {
      assert a + b == b;
    }
  }

  /** Filtering a list with no WrongInput in it keeps it whole. */
  lemma {:induction false} PositiveOrdinalKeeps(items: seq<MenuItem>)
    requires forall i :: 0 <= i < |items| ==> items[i] != WrongInput
    ensures PositiveOrdinal(items) == items
  {
    if |items| > 0 {
      PositiveOrdinalKeeps(items[1..]);
      assert items == [items[0]] + items[1..];
    }
  }

  /** The display texts of the prompt, in the enum's order. */
  const PromptTexts: seq<string> :=
    ["add", "remove", "import", "export", "ask", "exit", "log", "hardest card", "reset stats"]

  /** The display texts of the commands after WrongInput. */
  lemma CommandTexts(items: seq<MenuItem>)
    requires items == [Add, Remove, Import, Export, Ask, Exit, Log, Hardest, Reset]
    ensures Displays(items) == PromptTexts
  {
    var ds := Displays(items);
    assert ds[0] == Display(Add) && ds[1] == Display(Remove) && ds[2] == Display(Import);
    assert ds[3] == Display(Export) && ds[4] == Display(Ask) && ds[5] == Display(Exit);
    assert ds[6] == Display(Log) && ds[7] == Display(Hardest) && ds[8] == Display(Reset);
  }

  /** The prompt's items are the commands after WrongInput. */
  lemma ShownTexts()
    ensures Displays(PositiveOrdinal(Items)) == PromptTexts
  {
    var rest := Items[1..];
    assert rest == [Add, Remove, Import, Export, Ask, Exit, Log, Hardest, Reset];
    PositiveOrdinalKeeps(rest);
    assert PositiveOrdinal(Items) == PositiveOrdinal(rest);
    CommandTexts(rest);
  }

  /** `printMenu`: the display texts of every item whose ordinal is above 0, joined by
      ", ". */
  function Prompt(): (p: string)
    ensures p == "Input the action (" + Text.Join(PromptTexts, ", ") + "):"
  {
    ShownTexts();
    "Input the action (" + Text.Join(Displays(PositiveOrdinal(Items)), ", ") + "):"
  }

  /** The prompt lists every command except "try again", each once. */
  lemma PromptItems()
    ensures forall m: MenuItem :: Display(m) in PromptTexts <==> m != WrongInput
    ensures forall i, j :: 0 <= i < j < |PromptTexts| ==> PromptTexts[i] != PromptTexts[j]
  {
    forall m: MenuItem
      ensures Display(m) in PromptTexts <==> m != WrongInput
    {
      if m != WrongInput {
        assert PromptTexts[Ordinal(m) - 1] == Display(m);
      }
    }
  }
}

=== FILE: options.dfy ===
/** The optional value used wherever the game looks something up and may find nothing
    (Kotlin's nullable results: `firstOrNull`, `toIntOrNull`, a `readln` with no line left). */
module Options {

  datatype Option<+T> = None | Some(value: T)
}

=== FILE: quiz.dfy ===
/** The quiz of `FlashCardsGame`: `checkAnswer` for one answer and `play` for a run of
    questions asked in collection order. */
module Quiz {
  import opened Options
  import opened Cards
  import Text

  /** What `checkAnswer` tells the user: "Correct!", or the right answer together with
      the term the typed answer is the definition of, if some card has it. */
  datatype Verdict = Correct | Wrong(rightAnswer: string, correctFor: Option<string>)

  datatype Checked = Checked(cards: seq<Card>, verdict: Verdict)

  /** `checkAnswer` for the card at position `i`: a right answer changes nothing; a wrong
      one adds exactly 1 to that card's count and to no other, and the hint names the
      first card whose definition is the answer. */
  function CheckAnswer(cards: seq<Card>, i: nat, answer: string): (r: Checked)
    requires i < |cards|
    ensures r.verdict == Correct <==> answer == cards[i].definition
    ensures answer == cards[i].definition ==> r.cards == cards
    ensures answer != cards[i].definition ==>
              |r.cards| == |cards|
              && r.cards[i] == cards[i].(wrongAnswer := cards[i].wrongAnswer + 1)
              && (forall j :: 0 <= j < |cards| && j != i ==> r.cards[j] == cards[j])
    ensures r.verdict.Wrong? ==> r.verdict.rightAnswer == cards[i].definition
    ensures r.verdict.Wrong? ==> (r.verdict.correctFor.Some? <==> HasDefinition(cards, answer))
    ensures r.verdict.Wrong? && r.verdict.correctFor.Some? ==>
              exists k :: 0 <= k < |cards| && k != i && cards[k].definition == answer
                && cards[k].term == r.verdict.correctFor.value
                && (forall j :: 0 <= j < k ==> cards[j].definition != answer)
  {
    var card := cards[i];
    if card.definition == answer then Checked(cards, Correct)
    else
      var counted := cards[i := card.(wrongAnswer := card.wrongAnswer + 1)];
      var hint := match FindDefinition(counted, answer)
        case None => None
        case Some(k) => Some(counted[k].term);
      Checked(counted, Wrong(card.definition, hint))
  }

  /** The line `checkAnswer` prints; without a hint it ends with ".". */
  function VerdictMessage(v: Verdict): (m: string)
    ensures v.Correct? <==> m == "Correct!"
    ensures v.Wrong? ==> "Wrong. The right answer is " + Text.Quoted(v.rightAnswer) <= m
    ensures v.Wrong? && v.correctFor.Some? ==> Text.EndsWith(m, ", but your definition is correct for " + Text.Quoted(v.correctFor.value))
    ensures v.Wrong? && v.correctFor.None? ==> |m| > 0 && m[|m| - 1] == '.'
    ensures v.Wrong? && v.correctFor.Some? ==> |m| > 0 && m[|m| - 1] == '"'
  {
    match v
    case Correct => "Correct!"
    case Wrong(right, None) => "Wrong. The right answer is \"" + right + "\"."
    case Wrong(right, Some(t)) =>
      var hint := ", but your definition is correct for " + Text.Quoted(t);
      Text.EndsWithConcat("Wrong. The right answer is " + Text.Quoted(right), hint);
      "Wrong. The right answer is " + Text.Quoted(right) + hint
  }

  /** Two collections that agree on every term and definition (counts may differ). */
  predicate SameEntries(a: seq<Card>, b: seq<Card>) {
    |a| == |b| && forall j :: 0 <= j < |a| ==> a[j].term == b[j].term && a[j].definition == b[j].definition
  }

  /** The verdict depends on terms and definitions only, never on the counts. */
  lemma {:induction false} VerdictIgnoresCounts(a: seq<Card>, b: seq<Card>, i: nat, answer: string)
    requires SameEntries(a, b) && i < |a|
    ensures CheckAnswer(a, i, answer).verdict == CheckAnswer(b, i, answer).verdict
  {
    if a[i].definition != answer {
      var ca := a[i := a[i].(wrongAnswer := a[i].wrongAnswer + 1)];
      var cb := b[i := b[i].(wrongAnswer := b[i].wrongAnswer + 1)];
      SameEntriesFindDefinition(ca, cb, answer);
    }
  }

  lemma {:induction false} SameEntriesFindDefinition(a: seq<Card>, b: seq<Card>, d: string)
    requires SameEntries(a, b)
    ensures FindDefinition(a, d) == FindDefinition(b, d)
  {
    if |a| > 0 && a[0].definition != d {
      SameEntriesFindDefinition(a[1..], b[1..], d);
    }
  }

  /** `deck` is `cards` after answers `input[..i]`: one more wrong answer on each of the
      first `i` cards whose answer missed its definition, and no other change of count. */
  predicate CountedUpTo(deck: seq<Card>, cards: seq<Card>, input: seq<string>, i: nat)
    requires |deck| == |cards| && i <= |input|
  {
    forall j :: 0 <= j < |cards| ==>
      deck[j].wrongAnswer
      == cards[j].wrongAnswer + (if j < i && input[j] != cards[j].definition then 1 else 0)
  }

  /** Answering question `i` keeps terms and definitions, counts answer `i`, and gives the
      verdict the untouched collection would give. */
  lemma AnswerStep(deck: seq<Card>, cards: seq<Card>, input: seq<string>, i: nat)
    requires SameEntries(deck, cards) && i < |deck| && i < |input|
    requires CountedUpTo(deck, cards, input, i)
    ensures var d := CheckAnswer(deck, i, input[i]).cards;
              SameEntries(d, cards) && CountedUpTo(d, cards, input, i + 1)
    ensures CheckAnswer(deck, i, input[i]).verdict == CheckAnswer(cards, i, input[i]).verdict
  {
    VerdictIgnoresCounts(deck, cards, i, input[i]);
  }

  datatype PlayStatus =
    | Finished          // every question asked
    | IndexOutOfBounds  // `cards[i - 1]` past the end: Kotlin throws
    | InputEnded        // no typed line left for an answer: Kotlin's `readln` throws

  datatype Played = Played(cards: seq<Card>, verdicts: seq<Verdict>, status: PlayStatus, rest: seq<string>)

  /** How many questions `play(n)` gets through: n (none when n <= 0), but no more than
      there are cards or typed answers. */
  function AnswersTaken(n: int, cards: nat, typed: nat): (k: nat)
    ensures k <= cards && k <= typed && (n <= 0 ==> k == 0) && (n > 0 ==> k <= n)
    ensures n > 0 && n <= cards && n <= typed ==> k == n
    ensures n > cards && typed >= cards ==> k == cards
    ensures typed < n && typed < cards ==> k == typed
  {
    if n <= 0 then 0
    else if n <= cards && n <= typed then n
    else if cards <= typed then cards
    else typed
  }

  /** `play(n)`: ask cards 1..n in collection order, reading one answer per question.
      There is no bound check: a count past the end of the collection stops with
      IndexOutOfBounds once every card has been asked. */
  method Play(cards: seq<Card>, n: int, input: seq<string>) returns (r: Played)
    ensures |r.verdicts| == AnswersTaken(n, |cards|, |input|)
    ensures r.rest == input[|r.verdicts|..]
    ensures r.status == Finished <==> n <= 0 || (n <= |cards| && n <= |input|)
    ensures r.status == IndexOutOfBounds <==> n > |cards| && |input| >= |cards|
    ensures r.status == InputEnded <==> n > |input| && |input| < |cards|
    ensures SameEntries(r.cards, cards)
    ensures forall j :: 0 <= j < |cards| ==>
              r.cards[j].wrongAnswer
              == cards[j].wrongAnswer + (if j < |r.verdicts| && input[j] != cards[j].definition then 1 else 0)
    ensures forall j :: 0 <= j < |r.verdicts| ==> r.verdicts[j] == CheckAnswer(cards, j, input[j]).verdict
  {
    var deck := cards;
    var verdicts: seq<Verdict> := [];
    var i: nat := 0;
    while i < n
      invariant i <= |cards| && i <= |input| && (n <= 0 ==> i == 0) && (n > 0 ==> i <= n)
      invariant |verdicts| == i
      invariant SameEntries(deck, cards) && CountedUpTo(deck, cards, input, i)
      invariant forall j :: 0 <= j < i ==> verdicts[j] == CheckAnswer(cards, j, input[j]).verdict
    {
      if i >= |deck| {
        return Played(deck, verdicts, IndexOutOfBounds, input[i..]);
      }
      if i >= |input| {
        return Played(deck, verdicts, InputEnded, input[i..]);
      }
      var checked := CheckAnswer(deck, i, input[i]);
      AnswerStep(deck, cards, input, i);
      deck := checked.cards;
      verdicts := verdicts + [checked.verdict];
      i := i + 1;
    }
    r := Played(deck, verdicts, Finished, input[i..]);
  }

  /** Answering never changes terms or definitions, so the terms stay distinct. */
  lemma CheckKeepsTermsDistinct(cards: seq<Card>, i: nat, answer: string)
    requires DistinctTerms(cards) && i < |cards|
    ensures DistinctTerms(CheckAnswer(cards, i, answer).cards)
  {
  }
}

=== FILE: record.dfy ===
/** The one-line record format of the export file, `"term"="definition"count`, and its
    reading by the regex `"(?<term>.*)"="(?<def>.*)"(?<wrongs>\d*)?`, which must match
    the whole line. The two `.*` groups are greedy, so among all ways to split a line the
    regex takes the one with the longest term. */
module Record {
  import opened Options
  import opened Cards
  import opened Decimal

  /** The characters the regex `.` does not match (Java's line terminators). */
  predicate IsLineBreak(ch: char) {
    ch == '\n' || ch == '\r' || ch == '\U{85}' || ch == '\U{2028}' || ch == '\U{2029}'
  }

  predicate NoLineBreak(s: string) {
    forall i :: 0 <= i < |s| ==> !IsLineBreak(s[i])
  }

  /** The three groups of the regex. */
  datatype Fields = Fields(term: string, definition: string, wrongs: string)

  function Layout(f: Fields): string {
    "\"" + f.term + "\"=\"" + f.definition + "\"" + f.wrongs
  }

  /** The line matches the regex as a whole with these groups: `.*` takes anything but a
      line break, and the count group only ASCII digits. */
  predicate Matches(line: string, f: Fields) {
    line == Layout(f) && AllDigits(f.wrongs) && NoLineBreak(f.term) && NoLineBreak(f.definition)
  }

  /** The line `exportFlashCards` writes for a card. The regex can match it with the
      card's term, definition and written count as one split exactly when neither the
      term nor the definition holds a line break. Those are the groups read back whenever
      the definition holds no quote (`RecordRoundTrip`). */
  function FormatRecord(c: Card): (line: string)
    ensures var f := Fields(c.term, c.definition, NatToString(c.wrongAnswer));
              Matches(line, f) <==> NoLineBreak(c.term) && NoLineBreak(c.definition)
  {
    Layout(Fields(c.term, c.definition, NatToString(c.wrongAnswer)))
  }

  function LastIndexOf(s: string, ch: char): (r: Option<nat>)
    ensures r.Some? ==> r.value < |s| && s[r.value] == ch
    ensures r.Some? ==> forall j :: r.value < j < |s| ==> s[j] != ch
    ensures r.None? ==> forall j :: 0 <= j < |s| ==> s[j] != ch
  {
    if |s| == 0 then None
    else if s[|s| - 1] == ch then Some(|s| - 1)
    else LastIndexOf(s[..|s| - 1], ch)
  }

  /** The text `"="` between term and definition starts at position `k`. */
  predicate SeparatorAt(s: string, k: nat) {
    k + 3 <= |s| && s[k] == '"' && s[k + 1] == '=' && s[k + 2] == '"'
  }

  /** The last separator starting in 1..hi. */
  function LastSeparator(s: string, hi: nat): (r: Option<nat>)
    ensures r.Some? ==> 1 <= r.value <= hi && SeparatorAt(s, r.value)
    ensures r.Some? ==> forall k :: r.value < k <= hi ==> !SeparatorAt(s, k)
    ensures r.None? ==> forall k :: 1 <= k <= hi ==> !SeparatorAt(s, k)
  {
    if hi < 1 then None
    else if SeparatorAt(s, hi) then Some(hi)
    else LastSeparator(s, hi - 1)
  }

  /** Cutting a line at the separator `k` and the closing quote `q` and laying the pieces
      out again gives the line back. */
  lemma LayoutSplit(line: string, k: nat, q: nat)
    requires 1 <= k && k + 3 <= q < |line|
    requires line[0] == '"' && SeparatorAt(line, k) && line[q] == '"'
    ensures line == Layout(Fields(line[1..k], line[k + 3..q], line[q + 1..]))
  {
    var f := Fields(line[1..k], line[k + 3..q], line[q + 1..]);
    var l := Layout(f);
    assert |l| == |line|;
    forall j | 0 <= j < |line|
      ensures l[j] == line[j]
    {
      if j == 0 {
      } else if j < k {
        assert l[j] == f.term[j - 1];
      } else if j < k + 3 {
        assert l[j] == "\"=\""[j - k];
      } else if j < q {
        assert l[j] == f.definition[j - k - 3];
      } else if j == q {
        assert l[j] == '"';
      } else {
        assert l[j] == f.wrongs[j - q - 1];
      }
    }
  }

  /** `regex.matches(line)` and the groups of `regex.find(line)`: the line must start with
      a quote, its last quote must be followed by digits only, and the term runs up to the
      last `"="` that still leaves room for the closing quote. */
  function MatchRecord(line: string): (r: Option<Fields>)
    ensures r.Some? ==> |line| == 5 + |r.value.term| + |r.value.definition| + |r.value.wrongs|
    ensures r.Some? ==> line[0] == '"' && AllDigits(r.value.wrongs) && NoLineBreak(line)
  {
    if |line| == 0 || line[0] != '"' || !NoLineBreak(line) then None
    else match LastIndexOf(line, '"')
      case None => None
      case Some(q) =>
        if q < 4 || !AllDigits(line[q + 1..]) then None
        else match LastSeparator(line, q - 3)
          case None => None
          case Some(k) => Some(Fields(line[1..k], line[k + 3..q], line[q + 1..]))
  }

  /** The split found is one the regex can match. */
  lemma MatchSound(line: string)
    ensures MatchRecord(line).Some? ==> Matches(line, MatchRecord(line).value)
  {
    if MatchRecord(line).Some? {
      var q := LastIndexOf(line, '"').value;
      var k := LastSeparator(line, q - 3).value;
      var f := MatchRecord(line).value;
      assert f == Fields(line[1..k], line[k + 3..q], line[q + 1..]);
      LayoutSplit(line, k, q);
      assert forall j :: 0 <= j < |f.term| ==> f.term[j] == line[j + 1];
      assert forall j :: 0 <= j < |f.definition| ==> f.definition[j] == line[j + k + 3];
    }
  }

  /** Where the pieces of a matching line sit, and that its closing quote is its last. */
  lemma MatchesShape(line: string, f: Fields)
    requires Matches(line, f)
    ensures |line| == 5 + |f.term| + |f.definition| + |f.wrongs|
    ensures line[0] == '"' && SeparatorAt(line, 1 + |f.term|)
    ensures line[4 + |f.term| + |f.definition|] == '"'
    ensures forall j :: 1 <= j < 1 + |f.term| ==> line[j] == f.term[j - 1]
    ensures forall j :: 4 + |f.term| <= j < 4 + |f.term| + |f.definition| ==>
              line[j] == f.definition[j - 4 - |f.term|]
    ensures forall j :: 5 + |f.term| + |f.definition| <= j < |line| ==>
              line[j] == f.wrongs[j - 5 - |f.term| - |f.definition|]
    ensures LastIndexOf(line, '"') == Some(4 + |f.term| + |f.definition|)
    ensures NoLineBreak(line)
  {
    var t, d, w := f.term, f.definition, f.wrongs;
    var q := 4 + |t| + |d|;
    assert line == "\"" + t + "\"=\"" + d + "\"" + w;
    assert line[q] == '"';
    assert forall j :: q < j < |line| ==> line[j] == w[j - q - 1];
    assert forall j :: q < j < |line| ==> line[j] != '"' by {
      forall j | q < j < |line| ensures line[j] != '"' {
        assert IsDigit(w[j - q - 1]);
      }
    }
    var r := LastIndexOf(line, '"');
    assert r.Some? && r.value == q;
    forall j | 0 <= j < |line|
      ensures !IsLineBreak(line[j])
    {
      if 1 <= j < 1 + |t| {
        assert line[j] == t[j - 1];
      } else if 4 + |t| <= j < q {
        assert line[j] == d[j - 4 - |t|];
      } else if q < j {
        assert IsDigit(w[j - q - 1]);
      }
    }
  }

  /** Every split the regex could match is found, and none has a longer term than the
      one returned: the greedy choice. */
  lemma MatchComplete(line: string, g: Fields)
    requires Matches(line, g)
    ensures MatchRecord(line).Some?
    ensures |g.term| <= |MatchRecord(line).value.term|
  {
    MatchesShape(line, g);
    var q := 4 + |g.term| + |g.definition|;
    assert line[q + 1..] == g.wrongs;
    var s := LastSeparator(line, q - 3);
    assert SeparatorAt(line, 1 + |g.term|);
    assert s.Some? && s.value >= 1 + |g.term|;
  }

  /** Two splits of one line with terms of equal length are the same split. */
  lemma MatchUnique(line: string, f: Fields, g: Fields)
    requires Matches(line, f) && Matches(line, g) && |f.term| == |g.term|
    ensures f == g
  {
    MatchesShape(line, f);
    MatchesShape(line, g);
    assert f.term == line[1..1 + |f.term|] == g.term;
    assert |f.definition| == |g.definition|;
    assert f.definition == line[4 + |f.term|..4 + |f.term| + |f.definition|] == g.definition;
    assert f.wrongs == line[5 + |f.term| + |f.definition|..] == g.wrongs;
  }

  /** A split whose definition holds no quote has the longest term of all the line's
      splits, so it is the one read back (the term may hold quotes). Other splits may
      exist: `"a"="b"="c"` also splits as term `a`, definition `b"="c`. */
  lemma MatchWithoutQuoteInDefinition(line: string, f: Fields)
    requires Matches(line, f)
    requires forall j :: 0 <= j < |f.definition| ==> f.definition[j] != '"'
    ensures MatchRecord(line) == Some(f)
  {
    MatchComplete(line, f);
    MatchSound(line);
    var g := MatchRecord(line).value;
    MatchesShape(line, f);
    MatchesShape(line, g);
    // Both splits close at the last quote; a longer term for g would put the closing
    // quote of g's separator inside f's definition.
    assert |g.term| == |f.term|;
    MatchUnique(line, f, g);
  }

  /** `importFlashCard(fileName)` on one line: the groups of a matching line, with a
      missing or unreadable count taken as 0. */
  function ParseRecord(line: string): (r: Option<Card>)
    ensures r.Some? <==> MatchRecord(line).Some?
    ensures r.Some? ==> r.value.term == MatchRecord(line).value.term
    ensures r.Some? ==> r.value.definition == MatchRecord(line).value.definition
    ensures r.Some? ==> r.value.wrongAnswer <= MaxInt
    ensures r.Some? ==> var w := MatchRecord(line).value.wrongs;
              r.value.wrongAnswer == if |w| > 0 && Value(w) <= MaxInt then Value(w) else 0
  {
    match MatchRecord(line)
    case None => None
    case Some(f) =>
      var n := match ToIntOrNull(f.wrongs) case Some(v) => v case None => 0;
      Some(Card(f.term, f.definition, n))
  }

  /** A card the round trip is proved for: no line break anywhere, no quote in the
      definition, and a count that fits Kotlin's `Int`. */
  predicate WellFormed(c: Card) {
    NoLineBreak(c.term) && NoLineBreak(c.definition)
    && (forall j :: 0 <= j < |c.definition| ==> c.definition[j] != '"')
    && c.wrongAnswer <= MaxInt
  }

  /** Reading back the line written for a card gives the card. */
  lemma RecordRoundTrip(c: Card)
    requires WellFormed(c)
    ensures ParseRecord(FormatRecord(c)) == Some(c)
  {
    var f := Fields(c.term, c.definition, NatToString(c.wrongAnswer));
    MatchWithoutQuoteInDefinition(FormatRecord(c), f);
    IntRoundTrip(c.wrongAnswer);
  }

  /** A line without a count, `"term"="definition"`, is read with count 0. */
  lemma ParseWithoutCount(t: string, d: string)
    requires NoLineBreak(t) && NoLineBreak(d)
    requires forall j :: 0 <= j < |d| ==> d[j] != '"'
    ensures ParseRecord("\"" + t + "\"=\"" + d + "\"") == Some(Card(t, d, 0))
  {
    var f := Fields(t, d, "");
    assert "\"" + t + "\"=\"" + d + "\"" == Layout(f);
    MatchWithoutQuoteInDefinition(Layout(f), f);
  }

  /** A line written by hand, with any digits after the closing quote: leading zeros are
      allowed, and a value too large for `Int` is read as 0. */
  lemma ParseAnyCount(t: string, d: string, w: string)
    requires NoLineBreak(t) && NoLineBreak(d) && AllDigits(w)
    requires forall j :: 0 <= j < |d| ==> d[j] != '"'
    ensures ParseRecord("\"" + t + "\"=\"" + d + "\"" + w)
              == Some(Card(t, d, if |w| > 0 && Value(w) <= MaxInt then Value(w) else 0))
  {
    var f := Fields(t, d, w);
    assert "\"" + t + "\"=\"" + d + "\"" + w == Layout(f);
    MatchWithoutQuoteInDefinition(Layout(f), f);
  }

  /** `"a"="b"007` is read with count 7. */
  lemma ParseLeadingZeros()
    ensures ParseRecord("\"a\"=\"b\"007") == Some(Card("a", "b", 7))
  {
    var w := "007";
    assert AllDigits(w);
    assert w[..2] == "00" && "00"[..1] == "0" && "0"[..0] == "";
    assert Value(w) == 7;
    ParseAnyCount("a", "b", "007");
    assert "\"" + "a" + "\"=\"" + "b" + "\"" + "007" == "\"a\"=\"b\"007";
  }

  /** A hand-written count too large for `Int` is read as 0, because `toIntOrNull` gives
      null. */
  lemma ParseOversizedCount(t: string, d: string, w: string)
    requires NoLineBreak(t) && NoLineBreak(d)
    requires forall j :: 0 <= j < |d| ==> d[j] != '"'
    requires AllDigits(w) && Value(w) > MaxInt
    ensures ParseRecord("\"" + t + "\"=\"" + d + "\"" + w) == Some(Card(t, d, 0))
  {
    ParseAnyCount(t, d, w);
  }

  /** A definition holding `"="` is not read back: the greedy term swallows the part of
      the definition before its last `"="`. */
  lemma SeparatorInDefinitionIsMisread()
    ensures ParseRecord(FormatRecord(Card("a", "b\"=\"c", 0))) == Some(Card("a\"=\"b", "c", 0))
  {
    var f := Fields("a\"=\"b", "c", "0");
    assert NatToString(0) == "0";
    assert FormatRecord(Card("a", "b\"=\"c", 0)) == Layout(f);
    assert Value("0") == 0;
    MatchWithoutQuoteInDefinition(Layout(f), f);
  }

  /** `"a"="b"c"0` holds its `"="` at position 2 only. */
  lemma OneSeparatorOnly(line: string)
    requires line == "\"a\"=\"b\"c\"0"
    ensures forall k :: 0 <= k && SeparatorAt(line, k) ==> k == 2
  {
    forall k | 0 <= k && SeparatorAt(line, k)
      ensures k == 2
    {
      assert forall j :: 0 <= j < |line| && j != 3 ==> line[j] != '=';
      assert line[k + 1] == '=';
    }
  }

  /** A quote in the definition is not misread by itself: `"a"="b"c"0` holds one `"="`
      only, so the card with definition `b"c` is read back. */
  lemma QuoteInDefinitionReadBack()
    ensures ParseRecord(FormatRecord(Card("a", "b\"c", 0))) == Some(Card("a", "b\"c", 0))
  {
    var f := Fields("a", "b\"c", "0");
    var line := Layout(f);
    assert NatToString(0) == "0";
    assert FormatRecord(Card("a", "b\"c", 0)) == line;
    assert line == "\"a\"=\"b\"c\"0";
    OneSeparatorOnly(line);
    MatchComplete(line, f);
    MatchSound(line);
    var g := MatchRecord(line).value;
    MatchesShape(line, g);
    MatchUnique(line, f, g);
    assert Value("0") == 0;
  }
}

=== FILE: stats.dfy ===
/** The statistics handlers of `FlashCardsGame`: `hardestCard` and `resetCards`. */
module Stats {
  import opened Cards
  import Text
  import Decimal

  /** The largest wrong-answer count, 0 for an empty collection. */
  function MaxWrong(cards: seq<Card>): (m: nat)
    ensures forall i :: 0 <= i < |cards| ==> cards[i].wrongAnswer <= m
    ensures |cards| > 0 ==> exists i :: 0 <= i < |cards| && cards[i].wrongAnswer == m
    ensures |cards| == 0 ==> m == 0
  {
    if |cards| == 0 then 0
    else
      var rest := MaxWrong(cards[1..]);
      assert forall i :: 1 <= i < |cards| ==> cards[i] == cards[1..][i - 1];
      if cards[0].wrongAnswer >= rest then cards[0].wrongAnswer else rest
  }

  /** The cards whose count is positive and equal to `m`, in collection order. */
  function SelectCount(cards: seq<Card>, m: nat): (r: seq<Card>)
    ensures forall c :: c in r <==> c in cards && c.wrongAnswer > 0 && c.wrongAnswer == m
    ensures IsSubsequence(r, cards)
  {
    if |cards| == 0 then []
    else
      var tail := SelectCount(cards[1..], m);
      assert forall c :: c in cards <==> c == cards[0] || c in cards[1..];
      if cards[0].wrongAnswer > 0 && cards[0].wrongAnswer == m then [cards[0]] + tail
      else tail
  }

  /** A card of the collection with errors whose count no card exceeds. */
  predicate IsHardest(cards: seq<Card>, c: Card) {
    c in cards && c.wrongAnswer > 0 && forall i :: 0 <= i < |cards| ==> cards[i].wrongAnswer <= c.wrongAnswer
  }

  /** `hardestCard`'s filter: the cards with errors whose count is the maximum. */
  function HardestCards(cards: seq<Card>): (r: seq<Card>)
    ensures r == [] <==> forall i :: 0 <= i < |cards| ==> cards[i].wrongAnswer == 0
    ensures forall c :: c in r <==> IsHardest(cards, c)
    ensures forall c :: c in r ==> c.wrongAnswer == MaxWrong(cards)
    ensures IsSubsequence(r, cards)
  {
    var m := MaxWrong(cards);
    var r := SelectCount(cards, m);
    assert m > 0 ==> exists i :: 0 <= i < |cards| && cards[i] in r;
    r
  }

  /** What `hardestCard` reports. */
  datatype Report =
    | NoErrors
    | OneHardest(term: string, errors: nat)
    | SeveralHardest(terms: seq<string>, errors: nat)

  function Terms(cards: seq<Card>): (ts: seq<string>)
    ensures |ts| == |cards| && forall i :: 0 <= i < |cards| ==> ts[i] == cards[i].term
  {
    if |cards| == 0 then [] else [cards[0].term] + Terms(cards[1..])
  }

  /** The card at `i` has errors, and every other card has fewer. */
  predicate HardestAt(cards: seq<Card>, i: int) {
    0 <= i < |cards| && cards[i].wrongAnswer > 0
    && forall j :: 0 <= j < |cards| && j != i ==> cards[j].wrongAnswer < cards[i].wrongAnswer
  }

  /** The card at `i` is the only one whose count is `m`. */
  predicate OnlyAt(cards: seq<Card>, m: nat, i: int) {
    0 <= i < |cards| && cards[i].wrongAnswer == m
    && forall j :: 0 <= j < |cards| && j != i ==> cards[j].wrongAnswer != m
  }

  /** The filter for a positive count keeps exactly one card iff exactly one card has
      that count. */
  lemma {:induction false} SelectCountSingle(cards: seq<Card>, m: nat)
    requires m > 0
    ensures |SelectCount(cards, m)| == 1 <==> exists i :: OnlyAt(cards, m, i)
    decreases |cards|
  {
    if |cards| > 0 {
      var t := cards[1..];
      SelectCountSingle(t, m);
      if cards[0].wrongAnswer == m {
        if |SelectCount(t, m)| == 0 {
          forall j | 0 < j < |cards| ensures cards[j].wrongAnswer != m {
            assert cards[j] == t[j - 1];
          }
          assert OnlyAt(cards, m, 0);
        } else {
          var e := SelectCount(t, m)[0];
          assert e in SelectCount(t, m);
          var k :| 0 <= k < |t| && t[k] == e;
          assert cards[k + 1] == e;
          forall i | 0 <= i < |cards| ensures !OnlyAt(cards, m, i) {
            if i == 0 {
              assert k + 1 != i;
            }
          }
        }
      } else {
        if i :| OnlyAt(cards, m, i) {
          assert i != 0;
          forall j | 0 <= j < |t| && j != i - 1 ensures t[j].wrongAnswer != m {
            assert t[j] == cards[j + 1];
          }
          assert OnlyAt(t, m, i - 1);
        }
        if i :| OnlyAt(t, m, i) {
          forall j | 0 <= j < |cards| && j != i + 1 ensures cards[j].wrongAnswer != m {
            if j > 0 {
              assert cards[j] == t[j - 1];
            }
          }
          assert OnlyAt(cards, m, i + 1);
        }
      }
    }
  }

  /** `hardestCard`: nothing without errors; the single hardest card when one card has
      more errors than every other; otherwise every card that shares the highest count,
      in collection order. */
  function HardestReport(cards: seq<Card>): (r: Report)
    ensures r.NoErrors? <==> forall i :: 0 <= i < |cards| ==> cards[i].wrongAnswer == 0
    ensures r.OneHardest? <==> exists i :: HardestAt(cards, i)
    ensures r.OneHardest? ==>
              exists i :: HardestAt(cards, i) && r.term == cards[i].term && r.errors == cards[i].wrongAnswer
    ensures r.SeveralHardest? ==> |r.terms| >= 2 && r.terms == Terms(SelectCount(cards, r.errors))
    ensures r.SeveralHardest? ==> r.errors == MaxWrong(cards)
    ensures !r.NoErrors? ==> r.errors > 0
  {
    var hardest := HardestCards(cards);
    if |hardest| == 0 then NoErrors
    else
      var m := MaxWrong(cards);
      assert hardest[0] in hardest;
      SelectCountSingle(cards, m);
      assert forall i :: HardestAt(cards, i) <==> OnlyAt(cards, m, i);
      if |hardest| == 1 then
        var i :| OnlyAt(cards, m, i);
        assert cards[i] in hardest;
        OneHardest(hardest[0].term, hardest[0].wrongAnswer)
      else SeveralHardest(Terms(hardest), hardest[0].wrongAnswer)
  }

  /** The line `hardestCard` prints: singular wording for one card, plural wording with
      the quoted terms joined by ", " for several. */
  function ReportMessage(r: Report): (m: string)
    ensures r.NoErrors? <==> m == "There are no cards with errors."
    ensures r.OneHardest? ==> "The hardest card is " + Text.Quoted(r.term) + ". You have " <= m
    ensures r.OneHardest? ==> Text.EndsWith(m, " errors answering it")
    ensures r.SeveralHardest? ==> "The hardest cards are " <= m
    ensures r.SeveralHardest? ==> Text.EndsWith(m, " errors answering them.")
  {
    match r
    case NoErrors => "There are no cards with errors."
    case OneHardest(t, n) =>
      "The hardest card is " + Text.Quoted(t) + ". You have " + Decimal.NatToString(n) + " errors answering it"
    case SeveralHardest(ts, n) =>
      "The hardest cards are " + Text.Join(seq(|ts|, i requires 0 <= i < |ts| => Text.Quoted(ts[i])), ", ")
      + ". You have " + Decimal.NatToString(n) + " errors answering them."
  }

  /** `resetCards`: every count back to 0; terms, definitions and order stay. */
  function ResetStats(cards: seq<Card>): (r: seq<Card>)
    ensures |r| == |cards|
    ensures forall i :: 0 <= i < |cards| ==>
              r[i].term == cards[i].term && r[i].definition == cards[i].definition && r[i].wrongAnswer == 0
  {
    if |cards| == 0 then [] else [cards[0].(wrongAnswer := 0)] + ResetStats(cards[1..])
  }

  /** Resetting twice is resetting once. */
  lemma ResetIdempotent(cards: seq<Card>)
    ensures ResetStats(ResetStats(cards)) == ResetStats(cards)
  {
    var r := ResetStats(cards);
    var rr := ResetStats(r);
    assert forall i :: 0 <= i < |r| ==> rr[i] == r[i];
  }

  /** After a reset the collection has no hardest card, and its terms stay distinct. */
  lemma ResetClearsHardest(cards: seq<Card>)
    ensures HardestReport(ResetStats(cards)) == NoErrors
    ensures DistinctTerms(cards) ==> DistinctTerms(ResetStats(cards))
  {
  }
}

=== FILE: text.dfy ===
/** Small string helpers the game's messages and file-name checks rely on. */
module Text {

  /** Kotlin's `joinToString(sep)`: the parts in order, separated by `sep`. */
  function Join(parts: seq<string>, sep: string): (r: string)
    ensures |parts| == 0 ==> r == ""
    ensures |parts| == 1 ==> r == parts[0]
  {
    if |parts| == 0 then ""
    else if |parts| == 1 then parts[0]
    else parts[0] + sep + Join(parts[1..], sep)
  }

  /** Kotlin's `Char.isWhitespace()` on the JVM: Java's `isWhitespace` or `isSpaceChar`,
      that is the ASCII controls TAB..CR and FS..US, and every space, line or paragraph separator. */
  predicate IsWhitespace(ch: char) {
    || ('\t' <= ch <= '\r')
    || ('\U{1C}' <= ch <= '\U{1F}')
    || ch == ' ' || ch == '\U{A0}' || ch == '\U{1680}'
    || ('\U{2000}' <= ch <= '\U{200A}')
    || ch == '\U{2028}' || ch == '\U{2029}'
    || ch == '\U{202F}' || ch == '\U{205F}' || ch == '\U{3000}'
  }

  /** Kotlin's `isBlank()`, scanning from the front: true for the empty string, false at
      the first character that is not whitespace. */
  function IsBlank(s: string): (b: bool)
    ensures b <==> forall i :: 0 <= i < |s| ==> IsWhitespace(s[i])
  {
    if |s| == 0 then true
    else if !IsWhitespace(s[0]) then false
    else
      assert forall i :: 1 <= i < |s| ==> s[i] == s[1..][i - 1];
      IsBlank(s[1..])
  }

  /** A string between double quotes, as the game's messages print terms and answers. */
  function Quoted(s: string): string {
    "\"" + s + "\""
  }

  /** `s` ends with `suffix`. */
  predicate EndsWith(s: string, suffix: string) {
    |suffix| <= |s| && s[|s| - |suffix|..] == suffix
  }

  lemma EndsWithConcat(s: string, suffix: string)
    ensures EndsWith(s + suffix, suffix)
  {
    assert (s + suffix)[|s|..] == suffix;
  }
}

=== FILE: transfer.dfy ===
/** Import and export of the whole collection: `importFlashCard(fileName)` and
    `exportFlashCards(fileName)`, with a file given as its sequence of lines. */
module Transfer {
  import opened Options
  import opened Cards
  import opened Editing
  import opened Record
  import Text

  /** The collection after an import, and the number of lines the import reports. */
  datatype Imported = Imported(cards: seq<Card>, count: nat)

  /** The lines the record regex accepts, in file order. */
  function MatchingLines(lines: seq<string>): (r: seq<string>)
    ensures |r| <= |lines|
    ensures forall l :: l in r <==> l in lines && ParseRecord(l).Some?
    ensures forall l :: multiset(r)[l] == if ParseRecord(l).Some? then multiset(lines)[l] else 0
  {
    if |lines| == 0 then []
    else
      assert forall l :: l in lines <==> l == lines[0] || l in lines[1..];
      assert lines == [lines[0]] + lines[1..];
      if ParseRecord(lines[0]).Some? then [lines[0]] + MatchingLines(lines[1..])
      else MatchingLines(lines[1..])
  }

  /** One line of the import loop: a matching line is merged, any other line skipped. */
  function ImportLine(cards: seq<Card>, line: string): (r: seq<Card>)
    ensures ParseRecord(line).None? ==> r == cards
    ensures ParseRecord(line).Some? ==> HasTerm(r, ParseRecord(line).value.term)
    ensures ParseRecord(line).Some? && FindTerm(cards, ParseRecord(line).value.term).None? ==>
              r == cards + [ParseRecord(line).value]
    ensures ParseRecord(line).Some? && FindTerm(cards, ParseRecord(line).value.term).Some? ==>
              var i := FindTerm(cards, ParseRecord(line).value.term).value;
              r == cards[i := cards[i].(definition := ParseRecord(line).value.definition)]
    ensures |cards| <= |r| <= |cards| + 1
    ensures DistinctTerms(cards) ==> DistinctTerms(r)
  {
    match ParseRecord(line)
    case None => cards
    case Some(c) =>
      MergeKeepsTermsDistinct(cards, c.term, c.definition, c.wrongAnswer);
      MergeCard(cards, c.term, c.definition, c.wrongAnswer)
  }

  /** The import loop over a file's lines. The count is the number of matching lines,
      merges included, not the growth of the collection. */
  function ImportLines(cards: seq<Card>, lines: seq<string>): (r: Imported)
    ensures r.count == |MatchingLines(lines)|
    ensures DistinctTerms(cards) ==> DistinctTerms(r.cards)
    decreases |lines|
  {
    if |lines| == 0 then Imported(cards, 0)
    else
      var next := ImportLine(cards, lines[0]);
      if ParseRecord(lines[0]).Some? then
        var r := ImportLines(next, lines[1..]);
        Imported(r.cards, r.count + 1)
      else
        ImportLines(next, lines[1..])
  }

  /** The import never removes a card and adds at most one per matching line. */
  lemma {:induction false} ImportGrowth(cards: seq<Card>, lines: seq<string>)
    ensures |cards| <= |ImportLines(cards, lines).cards|
    ensures |ImportLines(cards, lines).cards| <= |cards| + ImportLines(cards, lines).count
    decreases |lines|
  {
    if |lines| > 0 {
      ImportGrowth(ImportLine(cards, lines[0]), lines[1..]);
    }
  }

  /** Lines the regex rejects have no effect at all: importing only the matching lines
      gives the same collection and the same count. */
  lemma {:induction false} ImportSkipsNonMatching(cards: seq<Card>, lines: seq<string>)
    ensures ImportLines(cards, lines) == ImportLines(cards, MatchingLines(lines))
    decreases |lines|
  {
    if |lines| > 0 {
      var m := MatchingLines(lines);
      ImportSkipsNonMatching(ImportLine(cards, lines[0]), lines[1..]);
      if ParseRecord(lines[0]).Some? {
        assert m[0] == lines[0] && m[1..] == MatchingLines(lines[1..]);
      }
    }
  }

  /** Importing a file in two pieces is importing the first piece, then the second. */
  lemma {:induction false} ImportConcat(cards: seq<Card>, a: seq<string>, b: seq<string>)
    ensures var first := ImportLines(cards, a);
            var second := ImportLines(first.cards, b);
            ImportLines(cards, a + b) == Imported(second.cards, first.count + second.count)
    decreases |a|
  {
    if |a| == 0 {
      assert a + b == b;
    } else {
      var ab := a + b;
      assert ab[0] == a[0] && ab[1..] == a[1..] + b;
      var next := ImportLine(cards, a[0]);
      ImportConcat(next, a[1..], b);
    }
  }

  /** A matching line whose term is already known is still counted, though the collection
      does not grow: only that card's definition changes. */
  lemma ImportCountsMerges(cards: seq<Card>, line: string)
    requires ParseRecord(line).Some? && HasTerm(cards, ParseRecord(line).value.term)
    ensures ImportLines(cards, [line]).count == 1
    ensures |ImportLines(cards, [line]).cards| == |cards|
  {
    assert MatchingLines([line]) == [line];
  }

  /** What `importFlashCard(fileName)` reports. */
  datatype ImportOutcome = Loaded(count: nat) | FileNotFound

  /** `importFlashCard(fileName)`: a missing file (None) is reported and changes nothing. */
  function ImportFile(cards: seq<Card>, file: Option<seq<string>>): (r: (seq<Card>, ImportOutcome))
    ensures file.None? <==> r.1 == FileNotFound
    ensures file.None? ==> r.0 == cards
    ensures file.Some? ==> r.1 == Loaded(|MatchingLines(file.value)|)
    ensures file.Some? ==> r.0 == ImportLines(cards, file.value).cards
  {
    match file
    case None => (cards, FileNotFound)
    case Some(lines) =>
      var imported := ImportLines(cards, lines);
      (imported.cards, Loaded(imported.count))
  }

  /** The lines `exportFlashCards` writes: one record per card, in collection order. */
  function ExportLines(cards: seq<Card>): (lines: seq<string>)
    ensures |lines| == |cards|
    ensures forall i :: 0 <= i < |cards| ==> lines[i] == FormatRecord(cards[i])
  {
    if |cards| == 0 then [] else [FormatRecord(cards[0])] + ExportLines(cards[1..])
  }

  /** `exportFlashCards(fileName)`: a blank file name writes nothing; otherwise the file
      holds exactly the exported lines and "N cards have been saved." names their number. */
  function ExportTo(fileName: string, cards: seq<Card>): (r: Option<seq<string>>)
    ensures r.None? <==> Text.IsBlank(fileName)
    ensures r.Some? ==> r.value == ExportLines(cards) && |r.value| == |cards|
    ensures r.Some? ==> forall i :: 0 <= i < |cards| && WellFormed(cards[i]) ==> ParseRecord(r.value[i]) == Some(cards[i])
  {
    if Text.IsBlank(fileName) then None
    else
      var lines := ExportLines(cards);
      assert forall i :: 0 <= i < |cards| && WellFormed(cards[i]) ==> ParseRecord(lines[i]) == Some(cards[i]) by {
        forall i | 0 <= i < |cards| && WellFormed(cards[i])
          ensures ParseRecord(lines[i]) == Some(cards[i])
        {
          RecordRoundTrip(cards[i]);
        }
      }
      Some(lines)
  }

  /** The exported line of a card whose term is new appends the card. */
  lemma ImportNewRecord(cards: seq<Card>, c: Card)
    requires WellFormed(c) && !HasTerm(cards, c.term)
    ensures ImportLine(cards, FormatRecord(c)) == cards + [c]
  {
    RecordRoundTrip(c);
  }

  lemma ShiftFirst(prefix: seq<Card>, suffix: seq<Card>)
    requires |suffix| > 0
    ensures (prefix + [suffix[0]]) + suffix[1..] == prefix + suffix
  {
    assert suffix == [suffix[0]] + suffix[1..];
  }

  /** Importing the exported lines of `suffix` after `prefix` appends `suffix`, when all
      the terms are distinct. */
  lemma {:induction false} ImportExported(prefix: seq<Card>, suffix: seq<Card>)
    requires forall i :: 0 <= i < |suffix| ==> WellFormed(suffix[i])
    requires DistinctTerms(prefix + suffix)
    ensures ImportLines(prefix, ExportLines(suffix)) == Imported(prefix + suffix, |suffix|)
    decreases |suffix|
  {
    if |suffix| == 0 {
      assert prefix + suffix == prefix;
    } else {
      var c := suffix[0];
      var lines := ExportLines(suffix);
      assert lines[0] == FormatRecord(c) && lines[1..] == ExportLines(suffix[1..]);
      assert !HasTerm(prefix, c.term) by {
        assert (prefix + suffix)[|prefix|] == c;
        forall j | 0 <= j < |prefix| ensures prefix[j].term != c.term {
          assert (prefix + suffix)[j] == prefix[j];
        }
      }
      ImportNewRecord(prefix, c);
      RecordRoundTrip(c);
      var prefix' := prefix + [c];
      ShiftFirst(prefix, suffix);
      assert forall i :: 0 <= i < |suffix[1..]| ==> WellFormed(suffix[1..][i]) by {
        forall i | 0 <= i < |suffix[1..]| ensures WellFormed(suffix[1..][i]) {
          assert suffix[1..][i] == suffix[i + 1];
        }
      }
      ImportExported(prefix', suffix[1..]);
      assert ImportLines(prefix, lines) == ImportLines(prefix', lines[1..]).(count := |suffix|);
    }
  }

  /** Exporting a collection with distinct terms and importing the file into an empty
      collection gives the collection back, order and counts included, and reports one
      card per line. */
  lemma ExportImportRoundTrip(cards: seq<Card>)
    requires DistinctTerms(cards)
    requires forall i :: 0 <= i < |cards| ==> WellFormed(cards[i])
    ensures ImportLines([], ExportLines(cards)) == Imported(cards, |cards|)
  {
    assert [] + cards == cards;
    ImportExported([], cards);
  }

  /** The record `"x"="y"3` is read with its count. */
  lemma ExampleFirstRecord()
    ensures ParseRecord("\"x\"=\"y\"3") == Some(Card("x", "y", 3))
  {
    var f := Fields("x", "y", "3");
    assert Layout(f) == "\"x\"=\"y\"3";
    assert Decimal.AllDigits("3") && Decimal.Value("3") == 3;
    assert Matches("\"x\"=\"y\"3", f);
    MatchWithoutQuoteInDefinition("\"x\"=\"y\"3", f);
  }

  /** The record `"x"="z"` is read with count 0. */
  lemma ExampleSecondRecord()
    ensures ParseRecord("\"x\"=\"z\"") == Some(Card("x", "z", 0))
  {
    ParseWithoutCount("x", "z");
    assert "\"" + "x" + "\"=\"" + "z" + "\"" == "\"x\"=\"z\"";
  }

  /** A file holding two records for the same term leaves a single card: the definition
      of the second line and the count of the first, since a merge never touches the
      count, even when the second line carries one. */
  lemma ImportSameTermTwice(t: string, d1: string, d2: string, n: nat, m: nat)
    requires WellFormed(Card(t, d1, n)) && WellFormed(Card(t, d2, m))
    ensures ImportLines([], [FormatRecord(Card(t, d1, n)), FormatRecord(Card(t, d2, m))])
              == Imported([Card(t, d2, n)], 2)
  {
    var l1, l2 := FormatRecord(Card(t, d1, n)), FormatRecord(Card(t, d2, m));
    RecordRoundTrip(Card(t, d1, n));
    RecordRoundTrip(Card(t, d2, m));
    var one := [Card(t, d1, n)];
    assert ImportLine([], l1) == one;
    FindTermAt(one, t, 0);
    assert ImportLine(one, l2) == [Card(t, d2, n)];
    assert ImportLines(one, [l2]) == Imported([Card(t, d2, n)], 1) by {
      assert [l2][1..] == [];
    }
    assert [l1, l2][1..] == [l2];
  }
}
